=== FILE: README.md ===
# HolyWorlds identity flow and permission defaults, in Dafny

This project models two pieces of the HolyWorlds community site.

1. **The authentication controller** (`app/Http/Controllers/Auth/AuthController.php`). This covers social login through an OAuth provider, linking a provider identity to an account, registration, account activation, and the hook that runs after a password login. The framework pieces (ORM, session, auth guard, Socialite) are replaced by one immutable `Identity.State`:
   - users: id to name, e-mail, bcrypt hash, activated flag and roles;
   - the user_auths rows (`links`, in table order);
   - activation tokens;
   - profile ids;
   - a session holding the logged-in user and the one-request flash slot for a pending provider identity.

   Every action is a pure function from the state and the request's inputs to a `Step`, which is the next state plus an `Outcome`. An outcome is a redirect target, the notices shown, and the activation mail handed to the mailer. `Requests.Handle` models one whole request:
   - the guest middleware that the constructor installs;
   - the action itself;
   - the flash aging the session does when the request ends.

   `Requests.Valid` is the invariant every request keeps. Rows point at existing users. No two link rows carry the same (provider, remote id). A pending identity exists only in a guest session and is never an identity that some row already carries.
2. **`PermissionDefaults::find`** (`app/Models/PermissionDefaults.php`). This is a first-match search over the permissions_default rows with an uninterpreted pattern matcher. `Find` is the `foreach` as a loop. It is proved equal to `Lookup`, which is defined with the recursive first-match search `FirstMatch.Index`. The same search also serves `UserAuth::where(...)->first()` (`Identity.FindLink`).

Framework helpers whose code is not part of this model become inputs, with only the meaning their call sites give them:
- `Env.loginProviders` is the set of keys of `config('auth.login_providers')` whose value is not null, since `isset` is false for a key mapped to null.
- `Env.isEmail` is the `email` validation rule.
- `Env.defaultRoleSetting` is the stored `default_role` setting; `Identity.DefaultRole` falls back to 100.
- `Env.consumeTokenOnActivate` says whether `User::activate` retires the token it was reached through. Every property is proved under both policies unless it names one.
- The remote id returned by `Socialite::driver($provider)->user()` is a parameter of the callback.
- `Fresh` holds the values the request cannot choose: the user id the users table assigns, the token `activationToken()` issues, and the bcrypt salt. A password hash is the term `Bcrypt(password, salt)`.
- `CallbackQuery` holds what `$request->has('code')` and `$request->has('denied')` report.

Files: `wrappers.dfy` (Option), `first_match.dfy`, `identity.dfy`, `validation.dfy`, `auth_controller.dfy`, `requests.dfy`, `flows.dfy`, `permission_defaults.dfy`.

How the code behaves at three points that are easy to assume otherwise:
- The controller catches no failure from the provider exchange and no duplicate-link conflict. Registration creates the pending link without looking it up again. Within one session, `Requests.Valid` shows that a duplicate cannot arise anyway. The pending slot expires with the first request that does not keep it, and every request that logs a user in is such a request.
- In one session, a second activation is turned away by the guest middleware before the action runs (`Requests.Dispatch`), because the first activation logged the user in. At the action level, a second call with the same token reports an invalid token only when activation retires the token (`Flows.ActivationTokenSingleUse`). Whether it does is not visible in the code.
- A password login of an account that is not activated logs the user out again and sends them back with a warning. A login through a provider makes no such check. The callback for a linked identity logs its user in whether or not the account is activated. Registration links a pending identity to the new account, which is not yet activated. So a guest who signs up through a provider can log straight back in through it before activating (`Flows.SocialLoginSkipsActivation`).

## Model

| member | source | states |
|---|---|---|
| FirstMatch.Index | app/Models/PermissionDefaults.php:16-18 | the result is the position of the first element satisfying the predicate, with no earlier element satisfying it; it is None exactly when no element satisfies it |
| Identity.FindLink | app/Http/Controllers/Auth/AuthController.php:74-77 | a found row is in the table and carries the queried provider and remote id; nothing is found exactly when no row carries that identity |
| Identity.DefaultRole | app/Http/Controllers/Auth/AuthController.php:184 | the stored default_role setting when there is one, otherwise role 100 |
| Identity.KeepPending | app/Http/Controllers/Auth/AuthController.php:168 | keeping the flash slot changes nothing in the store, nor the pending identity or the logged-in user, and marks a present slot to survive the request |
| Identity.AgeFlash | app/Http/Controllers/Auth/AuthController.php:81-82 | when a request ends, a flashed identity survives only if it was flashed or kept during that request, and is then due to expire with the next one |
| Validation.Violations | app/Http/Controllers/Auth/AuthController.php:170-174 | the form passes exactly when the name is non-blank, at most 255 long and unused; the e-mail is non-blank, well formed, at most 255 long and unused; and the password is non-blank, at least 6 long and equal to its confirmation |
| Identity.ForToken | app/Http/Controllers/Auth/AuthController.php:235 | a token resolves exactly when it is bound to a user that exists, and then to that user |
| Identity.LogIn | app/Http/Controllers/Auth/AuthController.php:245 | the session's user becomes the given user; the store and the pending slot are unchanged |
| Identity.LogOut | app/Http/Controllers/Auth/AuthController.php:123 | the session becomes a guest session; the store and the pending slot are unchanged |
| AuthController.RedirectToProvider | app/Http/Controllers/Auth/AuthController.php:43-52 | an unconfigured provider redirects to auth/login and a configured one to its consent page; the state never changes |
| AuthController.HandleProviderCallback | app/Http/Controllers/Auth/AuthController.php:60-94 | a callback without a code, carrying denied, or for an unconfigured provider changes nothing and redirects to auth/login. A linked identity logs in a user owning it and changes nothing else. An unlinked identity from a guest is parked in the pending slot with a redirect to auth/register. An unlinked identity from a logged-in user adds exactly the link (current user, provider, remote id) |
| AuthController.Authenticated | app/Http/Controllers/Auth/AuthController.php:120-131 | an account that is not activated is logged out and sent back with the not-activated warning; an activated one stays logged in and goes to the intended page with a welcome notice; the store and pending slot never change |
| AuthController.GetRegister | app/Http/Controllers/Auth/AuthController.php:154-158 | showing the form changes nothing but keeps the pending identity alive for one more request |
| AuthController.NewUser | app/Http/Controllers/Auth/AuthController.php:177-184 | the new account has the form's name and e-mail and a hash of the form's password, is not activated, and holds exactly the default role (100 when no setting is stored) |
| AuthController.PostRegister | app/Http/Controllers/Auth/AuthController.php:166-207 | a rejected form creates no user, role, profile, token or link and only keeps the pending slot. An accepted form adds exactly one user with the given name, e-mail, a hash of the password, not activated, with the default role. It also adds a profile with the same id and a token bound to that user, mails that token to the user, and leaves the session's user as it was. The pending identity, if any, becomes exactly one link of the new user and the slot is emptied; with none, no link is added |
| AuthController.GetActivation | app/Http/Controllers/Auth/AuthController.php:215-225 | never changes the state; shows the activation page for the token's user exactly when the token resolves, otherwise redirects to / with the invalid-token notice |
| AuthController.Activate | app/Http/Controllers/Auth/AuthController.php:242 | the user is marked activated and keeps its other fields; no other user, link, profile or session changes; tokens change only by retiring the token under the retiring policy |
| AuthController.PostActivation | app/Http/Controllers/Auth/AuthController.php:233-248 | a token that resolves to no user changes nothing and redirects to /. A resolving token activates exactly that user and logs them in; links, profiles and the pending slot are unchanged, and tokens change only by retiring the token under the retiring policy |
| Requests.Dispatch | app/Http/Controllers/Auth/AuthController.php:30-35 | every action except the provider redirect and callback turns a logged-in session away without changing anything |
| Requests.Handle | app/Http/Controllers/Auth/AuthController.php:30-35 | a request responds as its action does and changes the store as its action does; when it ends, a slot the action flashed or kept survives, unmarked, any other slot is dropped, and no slot stays marked to survive; a logged-in session turned away by the guest middleware loses only an unkept slot |
| Requests.AppendFreshIdentity | app/Http/Controllers/Auth/AuthController.php:79-85 | adding a row for an identity that no row carries keeps provider identities unique |
| Requests.CallbackPreservesValid | app/Http/Controllers/Auth/AuthController.php:74-93 | a provider callback keeps the invariant; in particular it never creates a second row for an identity |
| Requests.RegisterPreservesValid | app/Http/Controllers/Auth/AuthController.php:198-204 | registration keeps the invariant; the identity pulled from the pending slot was unlinked, so its new row is the only one |
| Requests.ActivationPreservesValid | app/Http/Controllers/Auth/AuthController.php:242-245 | activation keeps the invariant; the pending slot expires with the request that logs the user in |
| Requests.LoginPreservesValid | app/Http/Controllers/Auth/AuthController.php:120-127 | a successful credential check keeps the invariant |
| Requests.HandlePreservesValid | app/Http/Controllers/Auth/AuthController.php:60-248 | every request keeps the invariant |
| Requests.TraceKeepsIdentitiesUnique | app/Http/Controllers/Auth/AuthController.php:74-88 | along any sequence of requests from a valid state, every state is valid, so no two rows ever carry the same provider identity |
| Flows.FlashLastsOneRequest | app/Http/Controllers/Auth/AuthController.php:81-82 | a parked identity is gone after any request that is neither the registration page, the registration form, nor another callback |
| Flows.CallbackLogsInTheOwner | app/Http/Controllers/Auth/AuthController.php:89-92 | a callback for a linked identity logs in exactly the row's user and adds no link |
| Flows.LinkThroughRegistration | app/Http/Controllers/Auth/AuthController.php:79-83 | a guest's callback with an unlinked identity, the registration page and an accepted form add exactly one link, from the new user to that identity. The session stays a guest with an empty slot |
| Flows.MailedTokenActivates | app/Http/Controllers/Auth/AuthController.php:189-194 | the token mailed at registration activates the new account and logs it in |
| Flows.ActivationTokenSingleUse | app/Http/Controllers/Auth/AuthController.php:235-240 | when activation retires its token, a second activation with it finds no user and changes nothing |
| Flows.UnactivatedLoginStaysGuest | app/Http/Controllers/Auth/AuthController.php:122-127 | a password login of an account that is not activated ends with a guest session and an unchanged user store |
| Flows.SocialLoginSkipsActivation | app/Http/Controllers/Auth/AuthController.php:89-92 | after a social sign-up (callback, registration page, accepted form), the same callback logs the new account in although it is not activated |
| Flows.ActivationOnlyThroughToken | app/Http/Controllers/Auth/AuthController.php:233-242 | no request deactivates an account, and an account becomes activated only through an activation request whose token is bound to it |
| Flows.LinksGrowOnlyByCallbackOrRegistration | app/Http/Controllers/Auth/AuthController.php:60-207 | a request either leaves the link rows as they were or appends exactly one row after them. Only two requests append one: an accepted callback from a logged-in user, which appends (that user, provider, remote id), and an accepted registration form with a pending identity, which appends (new user, pending provider, pending remote id) |
| Flows.PendingParkedOnlyByCallback | app/Http/Controllers/Auth/AuthController.php:79-83 | apart from the registration page and form, which keep an existing slot, the only request that leaves an identity in the pending slot is a guest's callback for an identity no row carries, and the slot then holds that identity |
| Flows.SessionUserChangesOnlyByLogin | app/Http/Controllers/Auth/AuthController.php:60-248 | the logged-in user changes only through an accepted callback for a linked identity, an activation through a token bound to that user, or a password login of an activated account; no modelled request logs a logged-in session out |
| PermissionDefaults.Find | app/Models/PermissionDefaults.php:14-19 | a returned row is a row of the table whose pattern matches the permission, and every earlier row does not match. Nothing is returned exactly when no row matches. The loop agrees with the recursive lookup, and the table is a value, so the lookup cannot change it |
| PermissionDefaults.LaterRowsIrrelevant | app/Models/PermissionDefaults.php:16-18 | once a row matches, rows appended after the table do not change the result |
| PermissionDefaults.NonMatchingPrefixIrrelevant | app/Models/PermissionDefaults.php:16-18 | rows in front of the table that match nothing do not change the result |

## Left out

- `getLogout` is not modelled: its redirect depends on the previous URL and on the framework's logout trait.
- `postLogin` is modelled only from the point where the credential check has accepted a user (`Requests.CredentialsAccepted`). Left out are the choice between the e-mail and name field, the failed check and login throttling. The field choice is `postLogin`'s own line 106 and rests on PHP's `filter_var`. The credential check and throttling live in the framework's `AuthenticatesUsers` and `ThrottlesLogins` traits.
- Mail delivery and notification rendering are left out. The mail is an output value and the notices are texts in the outcome.
- An exception from the provider exchange, including Socialite's state mismatch, is left out. The controller does not catch it.
- The contents of the provider's user object are reduced to its id, the only field the controller reads itself. What `UserAuth::createFromSocialite` copies beyond the identity is not part of this model.
- Token generation and its entropy, whether a token stays valid after activation, and how `isActivated` is derived are left open. They are `Fresh.token`, `Env.consumeTokenOnActivate` and the `activated` flag. A new user starts not activated.
- Unique checks compare strings exactly. A case-insensitive database collation is not modelled.
- The e-mail rule, `preg_match` and `Util::prepareExpression` are uninterpreted predicates.
- Validation.Violations: lists every rule the form breaks. The framework's message bag may report only some of them, but it rejects the same forms.
- The targets of `back()`, `redirect()->intended('/')` and the guest middleware's redirect are opaque targets. Their URLs come from the request headers, the session and middleware code that this model does not hold.
- The input and error data that a failed validation flashes are left out; only the pending-identity flash slot is modelled.
- The ordering of the permissions_default rows is whatever the unordered query returns. The model takes the table as a sequence in that order.
- Concurrent sessions and database unique-constraint races are left out. Two sessions can park the same identity and both register, which the single-session invariant does not cover.
- The event administration controller, the push-service client and the activation view are not part of this model.
- AuthController.GetActivation: the activation view posts `$user->activationToken()` back to `postActivation`, and that call's code is not shown. The contract says this page never changes the state. That assumes the call returns the token the user already holds, which exists because the user was reached through it, rather than issuing a new one.

=== FILE: auth_controller.dfy ===
/**
 * The authentication controller's actions as pure transitions from a state
 * and the request's inputs to the next state and the response.
 */
module AuthController {
  import opened Wrappers
  import opened Identity
  import opened Validation

  /** Where the response sends the browser. */
  datatype Target =
    | Redirect(path: string)
    | Back
    | BackWithErrors(violations: set<Violation>)
    | Intended(fallback: string)
    | ProviderConsent(provider: Provider)
    | RegistrationPage
    | ActivationPage(user: UserId)
      /** The guest middleware turned a logged-in session away; where it sends it is not part of this model. */
    | GuestOnly

  datatype Notice = Success(text: string) | Warning(text: string) | Info(text: string)

  /** The activation e-mail handed to the mailer: recipient address and name, and the token it carries. */
  datatype Mail = ActivationMail(to: string, toName: string, token: Token)

  datatype Outcome = Outcome(target: Target, notices: seq<Notice>, mail: Option<Mail>)

  datatype Step = Step(state: State, outcome: Outcome)

  /** Values the request cannot choose: the id the users table assigns, the token issued, the bcrypt salt. */
  datatype Fresh = Fresh(user: UserId, token: Token, salt: nat)

  /** The two query flags the callback inspects, as `$request->has(...)` reports them. */
  datatype CallbackQuery = CallbackQuery(hasCode: bool, hasDenied: bool)

  const LoginPath := "auth/login"
  const RegisterPath := "auth/register"
  const SettingsPath := "account/settings"
  const HomePath := "/"

  const InvalidTokenNotice := Info("Invalid token. Maybe the link you followed is old?")

  function Respond(s: State, target: Target): Step
  {
    Step(s, Outcome(target, [], None))
  }

  /** The pending slot, if any, as it stands for the current request. */
  function Pending(s: State): Option<PendingLink>
  {
    match s.session.pending
    case None => None
    case Some(f) => Some(f.link)
  }

  predicate CallbackAccepted(env: Env, provider: Provider, query: CallbackQuery)
  {
    query.hasCode && !query.hasDenied && provider in env.loginProviders
  }

  /** `redirectToProvider`: unknown providers go back to the login page; nothing is stored. */
  function RedirectToProvider(env: Env, s: State, provider: Provider): (r: Step)
    ensures r.state == s
    ensures provider !in env.loginProviders <==> r.outcome.target == Redirect(LoginPath)
    ensures provider in env.loginProviders <==> r.outcome.target == ProviderConsent(provider)
  {
    if provider !in env.loginProviders then Respond(s, Redirect(LoginPath))
    else Respond(s, ProviderConsent(provider))
  }

  /**
   * `handleProviderCallback`, where `remote` is the id the provider returned
   * for the user it authenticated.
   */
  function HandleProviderCallback(env: Env, s: State, provider: Provider, query: CallbackQuery, remote: RemoteId): (r: Step)
    requires LinkOwnersExist(s)
    // A refused, incomplete or unknown-provider callback touches nothing.
    ensures !CallbackAccepted(env, provider, query) ==> r == Respond(s, Redirect(LoginPath))
    // A known identity logs in a user that owns it, and nothing else.
    ensures CallbackAccepted(env, provider, query) && Linked(s.links, provider, remote) ==>
      && r.state.session.user.Some?
      && Link(r.state.session.user.value, provider, remote) in s.links
      && r.state == LogIn(s, r.state.session.user.value)
      && r.outcome.target == Redirect(HomePath)
    // An unknown identity brought by a guest is parked in the pending slot.
    ensures CallbackAccepted(env, provider, query) && !Linked(s.links, provider, remote) && IsGuest(s) ==>
      && r.state == s.(session := s.session.(pending := Some(Flash(PendingLink(provider, remote), true))))
      && r.outcome.target == Redirect(RegisterPath)
    // An unknown identity brought by a logged-in user is linked to that user.
    ensures CallbackAccepted(env, provider, query) && !Linked(s.links, provider, remote) && !IsGuest(s) ==>
      && r.state == s.(links := s.links + [Link(s.session.user.value, provider, remote)])
      && r.outcome.target == Redirect(SettingsPath)
  {
    if !query.hasCode || query.hasDenied then Respond(s, Redirect(LoginPath))
    else if provider !in env.loginProviders then Respond(s, Redirect(LoginPath))
    else
      match FindLink(s.links, provider, remote)
      case None =>
        if IsGuest(s) then
          var flashed := Flash(PendingLink(provider, remote), true);
          Respond(s.(session := s.session.(pending := Some(flashed))), Redirect(RegisterPath))
        else
          var linked := s.(links := s.links + [Link(s.session.user.value, provider, remote)]);
          Step(linked, Outcome(Redirect(SettingsPath),
            [Success("Your " + provider + " account is now connected and you can log in with it from now on.")], None))
      case Some(auth) =>
        Step(LogIn(s, auth.user), Outcome(Redirect(HomePath),
          [Success("Welcome back, " + s.users[auth.user].name + "!")], None))
  }

  /**
   * `authenticated`, the hook run after the credential check has logged
   * `user` in: an account that is not activated is logged out again.
   */
  function Authenticated(s: State, user: UserId): (r: Step)
    requires user in s.users
    ensures r.state.users == s.users && r.state.links == s.links
    ensures r.state.tokens == s.tokens && r.state.profiles == s.profiles
    ensures r.state.session.pending == s.session.pending
    ensures !s.users[user].activated ==>
      && r.state.session.user.None?
      && r.outcome.target == Back
      && r.outcome.notices == [Warning("Your account is not activated. :(")]
    ensures s.users[user].activated ==>
      && r.state == s
      && r.outcome.target == Intended(HomePath)
      && r.outcome.notices == [Success("Welcome, " + s.users[user].name + "!")]
  {
    if !s.users[user].activated then
      Step(LogOut(s), Outcome(Back, [Warning("Your account is not activated. :(")], None))
    else
      Step(s, Outcome(Intended(HomePath), [Success("Welcome, " + s.users[user].name + "!")], None))
  }

  /** `getRegister`: shows the form and keeps a pending provider identity for one more request. */
  function GetRegister(s: State): (r: Step)
    ensures r.state.users == s.users && r.state.links == s.links
    ensures r.state.tokens == s.tokens && r.state.profiles == s.profiles
    ensures r.state.session.user == s.session.user
    ensures Pending(r.state) == Pending(s)
    ensures r.state.session.pending.Some? ==> r.state.session.pending.value.kept
    ensures r.outcome.target == RegistrationPage
  {
    Respond(KeepPending(s), RegistrationPage)
  }

  /** The account `postRegister` creates for a valid form. */
  function NewUser(env: Env, form: Validation.RegisterForm, salt: nat): (u: User)
    ensures u.name == form.name && u.email == form.email
    ensures u.password.plain == form.password
    ensures !u.activated
    ensures u.roles == {DefaultRole(env)}
    ensures env.defaultRoleSetting.None? ==> u.roles == {FallbackRole}
  {
    User(form.name, form.email, Bcrypt(form.password, salt), false, {DefaultRole(env)})
  }

  /**
   * `postRegister`. The pending slot is kept first, so a rejected form
   * leaves it for the next attempt; an accepted form creates the user, its
   * role, profile and activation token, and pulls the pending identity into
   * a link of the new user.
   */
  function PostRegister(env: Env, s: State, form: Validation.RegisterForm, given: Fresh): (r: Step)
    requires given.user !in s.users
    requires given.token !in s.tokens
    // Rejected: nothing is created; only the pending slot is kept.
    ensures Violations(env.isEmail, s.users, form) != {} ==>
      && r.state == KeepPending(s)
      && r.outcome.target == BackWithErrors(Violations(env.isEmail, s.users, form))
      && r.outcome.mail.None?
    // Accepted: exactly one new user, not activated, with the default role.
    ensures Violations(env.isEmail, s.users, form) == {} ==>
      && r.state.users.Keys == s.users.Keys + {given.user}
      && (forall id :: id in s.users ==> r.state.users[id] == s.users[id])
      && r.state.users[given.user].name == form.name
      && r.state.users[given.user].email == form.email
      && r.state.users[given.user].password.plain == form.password
      && !r.state.users[given.user].activated
      && r.state.users[given.user].roles == {DefaultRole(env)}
      && r.state.profiles == s.profiles + {given.user}
      && r.state.tokens == s.tokens[given.token := given.user]
      && r.state.session.user == s.session.user
      && r.state.session.pending.None?
      && r.outcome.mail == Some(ActivationMail(form.email, form.name, given.token))
      && r.outcome.target == Redirect(HomePath)
    // Accepted: the pending identity, and only it, becomes a link of the new user.
    ensures Violations(env.isEmail, s.users, form) == {} && Pending(s).Some? ==>
      r.state.links == s.links + [Link(given.user, Pending(s).value.provider, Pending(s).value.remote)]
    ensures Violations(env.isEmail, s.users, form) == {} && Pending(s).None? ==>
      r.state.links == s.links
  {
    var s1 := KeepPending(s);
    var violations := Violations(env.isEmail, s1.users, form);
    if violations != {} then
      Respond(s1, BackWithErrors(violations))
    else
      var user := NewUser(env, form, given.salt);
      var s2 := s1.(
        users := s1.users[given.user := user],
        profiles := s1.profiles + {given.user},
        tokens := s1.tokens[given.token := given.user]);
      var mail := ActivationMail(user.email, user.name, given.token);
      var thanks := Success("Thanks for registering, " + user.name
        + "! An account activation link has been sent to " + user.email + ".");
      match Pending(s1)
      case None =>
        Step(s2, Outcome(Redirect(HomePath), [thanks], Some(mail)))
      case Some(p) =>
        var s3 := s2.(
          links := s2.links + [Link(given.user, p.provider, p.remote)],
          session := s2.session.(pending := None));
        Step(s3, Outcome(Redirect(HomePath),
          [thanks, Success("Your account has been linked to " + p.provider + ".")], Some(mail)))
  }

  /** `getActivation`: shows the confirmation form for a token's user; never changes anything. */
  function GetActivation(s: State, token: Token): (r: Step)
    ensures r.state == s
    ensures r.outcome.target.ActivationPage? <==> token in s.tokens && s.tokens[token] in s.users
    ensures r.outcome.target.ActivationPage? ==> r.outcome.target.user == s.tokens[token]
    ensures !r.outcome.target.ActivationPage? ==>
      r.outcome.target == Redirect(HomePath) && r.outcome.notices == [InvalidTokenNotice]
  {
    match ForToken(s, token)
    case None => Step(s, Outcome(Redirect(HomePath), [InvalidTokenNotice], None))
    case Some(user) => Respond(s, ActivationPage(user))
  }

  /** The store after `User::activate` on `user`, reached through `token`. */
  function Activate(env: Env, s: State, user: UserId, token: Token): (r: State)
    requires user in s.users
    ensures r.users.Keys == s.users.Keys
    ensures r.users[user] == s.users[user].(activated := true)
    ensures forall id :: id in s.users && id != user ==> r.users[id] == s.users[id]
    ensures r.links == s.links && r.profiles == s.profiles && r.session == s.session
    ensures env.consumeTokenOnActivate ==> r.tokens == s.tokens - {token}
    ensures !env.consumeTokenOnActivate ==> r.tokens == s.tokens
  {
    s.(users := s.users[user := s.users[user].(activated := true)],
       tokens := if env.consumeTokenOnActivate then s.tokens - {token} else s.tokens)
  }

  /** `postActivation`: a token bound to a user activates that user and logs them in. */
  function PostActivation(env: Env, s: State, token: Token): (r: Step)
    ensures !(token in s.tokens && s.tokens[token] in s.users) ==>
      r == Step(s, Outcome(Redirect(HomePath), [InvalidTokenNotice], None))
    ensures token in s.tokens && s.tokens[token] in s.users ==>
      var user := s.tokens[token];
      && r.state.users.Keys == s.users.Keys
      && r.state.users[user] == s.users[user].(activated := true)
      && (forall id :: id in s.users && id != user ==> r.state.users[id] == s.users[id])
      && r.state.session == Session(Some(user), s.session.pending)
      && r.state.links == s.links
      && r.state.profiles == s.profiles
      && (env.consumeTokenOnActivate ==> token !in r.state.tokens && r.state.tokens == s.tokens - {token})
      && (!env.consumeTokenOnActivate ==> r.state.tokens == s.tokens)
      && r.outcome.target == Redirect(HomePath)
  {
    match ForToken(s, token)
    case None => Step(s, Outcome(Redirect(HomePath), [InvalidTokenNotice], None))
    case Some(user) =>
      var u := s.users[user];
      Step(LogIn(Activate(env, s, user, token), user), Outcome(Redirect(HomePath),
        [Success("Account " + u.name + "/" + u.email + " successfully activated. You are now logged in. :D")], None))
  }
}

=== FILE: first_match.dfy ===
/**
 * First-match search over a sequence: the shape shared by an ORM
 * `where(...)->first()` query and by a `foreach` that returns on the first
 * hit.
 */
module FirstMatch {
  import opened Wrappers

  /** `i` is the position of the first element of `s` that satisfies `p`. */
  ghost predicate IsFirst<T>(s: seq<T>, p: T -> bool, i: nat)
  {
    && i < |s|
    && p(s[i])
    && forall j :: 0 <= j < i ==> !p(s[j])
  }

  /** No element of `s` satisfies `p`. */
  ghost predicate NoneMatch<T>(s: seq<T>, p: T -> bool)
  {
    forall j :: 0 <= j < |s| ==> !p(s[j])
  }

  /** Index of the first element of `s` satisfying `p`, or `None`. */
  function Index<T>(s: seq<T>, p: T -> bool): (r: Option<nat>)
    ensures r.Some? ==> IsFirst(s, p, r.value)
    ensures r.None? <==> NoneMatch(s, p)
    decreases |s|
  {
    if |s| == 0 then None
    else if p(s[0]) then Some(0)
    else
      match Index(s[1..], p)
      case None => None
      case Some(k) => Some(k + 1)
  }

  /** The first match is unique: any position that is first is the one `Index` finds. */
  lemma FirstIsUnique<T>(s: seq<T>, p: T -> bool, i: nat)
    requires IsFirst(s, p, i)
    ensures Index(s, p) == Some(i)
  {
  }
}

=== FILE: flows.dfy ===
/** Properties of the identity flow that span more than one request. */
module Flows {
  import opened Wrappers
  import opened Identity
  import opened Validation
  import opened AuthController
  import opened Requests

  /**
   * A provider identity parked by a callback lives for exactly one further
   * request unless that request is the registration page or form (which
   * keep it) or another callback (which may replace it).
   */
  lemma FlashLastsOneRequest(env: Env, s: State, req: Request)
    requires Valid(s)
    requires Admissible(s, req)
    requires !(req.ShowRegister? || req.SubmitRegister? || req.ProviderCallback?)
    ensures Handle(env, s, req).state.session.pending.None?
  {
  }

  /** A callback for an identity some row carries logs in that row's user and no one else. */
  lemma CallbackLogsInTheOwner(env: Env, s: State, provider: Provider, query: CallbackQuery, link: Link)
    requires Valid(s)
    requires CallbackAccepted(env, provider, query)
    requires link in s.links && link.provider == provider
    ensures var r := Handle(env, s, ProviderCallback(provider, query, link.remote));
      && r.state.session.user == Some(link.user)
      && r.state.links == s.links
      && r.state.users == s.users
      && r.state.tokens == s.tokens
      && r.state.session.pending.None?
  {
  }

  /**
   * The social sign-up round trip: a guest's callback with an unlinked
   * identity, the registration page, then an accepted registration form
   * link that identity to the new user, once, and leave the session a guest.
   */
  lemma LinkThroughRegistration(
    env: Env, s: State, provider: Provider, query: CallbackQuery, remote: RemoteId,
    form: Validation.RegisterForm, given: Fresh)
    requires Valid(s) && IsGuest(s)
    requires CallbackAccepted(env, provider, query)
    requires !Linked(s.links, provider, remote)
    requires given.user !in s.users && given.token !in s.tokens
    requires Violations(env.isEmail, s.users, form) == {}
    ensures
      var s1 := Handle(env, s, ProviderCallback(provider, query, remote)).state;
      var s2 := Handle(env, s1, ShowRegister).state;
      var s3 := Handle(env, s2, SubmitRegister(form, given)).state;
      && s1.session.pending == Some(Flash(PendingLink(provider, remote), false))
      && s3.links == s.links + [Link(given.user, provider, remote)]
      && s3.users.Keys == s.users.Keys + {given.user}
      && s3.session == Session(None, None)
  {
  }

  /**
   * The token mailed at registration activates the account it was issued
   * for and logs that user in.
   */
  lemma MailedTokenActivates(env: Env, s: State, form: Validation.RegisterForm, given: Fresh)
    requires Valid(s) && IsGuest(s)
    requires given.user !in s.users && given.token !in s.tokens
    requires Violations(env.isEmail, s.users, form) == {}
    ensures
      var r1 := Handle(env, s, SubmitRegister(form, given));
      && r1.outcome.mail.Some?
      && var r2 := Handle(env, r1.state, SubmitActivation(r1.outcome.mail.value.token));
      && r2.state.users[given.user].activated
      && r2.state.session.user == Some(given.user)
  {
  }

  /**
   * When activation retires its token, a second activation through the same
   * token finds no user and changes nothing.
   */
  lemma ActivationTokenSingleUse(env: Env, s: State, token: Token)
    requires env.consumeTokenOnActivate
    ensures
      var s1 := PostActivation(env, s, token).state;
      PostActivation(env, s1, token) == Step(s1, Outcome(Redirect(HomePath), [InvalidTokenNotice], None))
  {
  }

  /**
   * A password login (the credential check followed by the `authenticated`
   * hook) of an account that is not activated ends with a guest session.
   */
  lemma UnactivatedLoginStaysGuest(env: Env, s: State, user: UserId)
    requires LinkOwnersExist(s) && IsGuest(s)
    requires user in s.users && !s.users[user].activated
    ensures IsGuest(Handle(env, s, CredentialsAccepted(user)).state)
    ensures Handle(env, s, CredentialsAccepted(user)).state.users == s.users
  {
  }

  /**
   * Only a callback from a logged-in user and an accepted registration add
   * link rows, one row each; every request leaves the existing rows alone.
   */
  lemma LinksGrowOnlyByCallbackOrRegistration(env: Env, s: State, req: Request)
    requires Valid(s)
    requires Admissible(s, req)
    ensures var links' := Handle(env, s, req).state.links;
      && (links' == s.links || (|links'| == |s.links| + 1 && links'[..|s.links|] == s.links))
      && (links' != s.links ==>
            || (req.ProviderCallback? && CallbackAccepted(env, req.provider, req.query) && !IsGuest(s)
                && links' == s.links + [Link(s.session.user.value, req.provider, req.remote)])
            || (req.SubmitRegister? && IsGuest(s) && Violations(env.isEmail, s.users, req.form) == {}
                && Pending(s).Some?
                && links' == s.links + [Link(req.given.user, Pending(s).value.provider, Pending(s).value.remote)]))
  {
  }

  /** Only a guest's callback with an unlinked identity parks an identity in the pending slot. */
  lemma PendingParkedOnlyByCallback(env: Env, s: State, req: Request)
    requires Valid(s)
    requires Admissible(s, req)
    requires !(req.ShowRegister? || req.SubmitRegister?)
    ensures var pending' := Handle(env, s, req).state.session.pending;
      pending'.Some? ==>
        && req.ProviderCallback?
        && IsGuest(s)
        && pending'.value.link == PendingLink(req.provider, req.remote)
        && !Linked(s.links, req.provider, req.remote)
  {
  }

  /**
   * The session's user changes only through an accepted callback for an
   * identity some row carries, an activation through a token bound to a
   * user, or a password login of an activated account; and no modelled
   * request logs a logged-in session out.
   */
  lemma SessionUserChangesOnlyByLogin(env: Env, s: State, req: Request)
    requires Valid(s)
    requires Admissible(s, req)
    ensures var user' := Handle(env, s, req).state.session.user;
      && (user' != s.session.user ==>
            || (req.ProviderCallback? && CallbackAccepted(env, req.provider, req.query)
                && Linked(s.links, req.provider, req.remote))
            || (req.SubmitActivation? && req.token in s.tokens && user' == Some(s.tokens[req.token]))
            || (req.CredentialsAccepted? && s.users[req.user].activated && user' == Some(req.user)))
      && (s.session.user.Some? ==> user'.Some?)
  {
  }

  /**
   * Activation is one-way and has one door: an activated account stays
   * activated, and an account becomes activated only through an activation
   * request whose token is bound to it.
   */
  lemma ActivationOnlyThroughToken(env: Env, s: State, req: Request, u: UserId)
    requires Valid(s)
    requires Admissible(s, req)
    requires u in s.users
    ensures var users' := Handle(env, s, req).state.users;
      && u in users'
      && (s.users[u].activated ==> users'[u].activated)
      && (users'[u].activated && !s.users[u].activated ==>
            req.SubmitActivation? && req.token in s.tokens && s.tokens[req.token] == u)
  {
  }

  /**
   * Logging in through a provider does not ask whether the account is
   * activated: a guest who parks an identity and registers is linked at
   * once, and the same callback then logs the new, not yet activated
   * account in.
   */
  lemma SocialLoginSkipsActivation(
    env: Env, s: State, provider: Provider, query: CallbackQuery, remote: RemoteId,
    form: Validation.RegisterForm, given: Fresh)
    requires Valid(s) && IsGuest(s)
    requires CallbackAccepted(env, provider, query)
    requires !Linked(s.links, provider, remote)
    requires given.user !in s.users && given.token !in s.tokens
    requires Violations(env.isEmail, s.users, form) == {}
    ensures
      var s1 := Handle(env, s, ProviderCallback(provider, query, remote)).state;
      var s2 := Handle(env, s1, ShowRegister).state;
      var s3 := Handle(env, s2, SubmitRegister(form, given)).state;
      && LinkOwnersExist(s3)
      && var s4 := Handle(env, s3, ProviderCallback(provider, query, remote)).state;
      && !s4.users[given.user].activated
      && s4.session.user == Some(given.user)
  {
    var s1 := Handle(env, s, ProviderCallback(provider, query, remote)).state;
    var s2 := Handle(env, s1, ShowRegister).state;
    var s3 := Handle(env, s2, SubmitRegister(form, given)).state;
    LinkThroughRegistration(env, s, provider, query, remote, form, given);
    CallbackPreservesValid(env, s, provider, query, remote);
    RegisterPreservesValid(env, s2, form, given);
    var link := Link(given.user, provider, remote);
    assert link in s3.links;
    CallbackLogsInTheOwner(env, s3, provider, query, link);
  }
}

=== FILE: identity.dfy ===
/**
 * The identity store and session that the authentication controller reads
 * and writes, made explicit: users, provider links (the user_auths table),
 * activation tokens, profiles, and the session with its logged-in user and
 * its one-request "pending provider identity" flash slot.
 */
module Identity {
  import opened Wrappers
  import FirstMatch

  type UserId = nat
  type RoleId = int
  type Token = string
  type Provider = string
  type RemoteId = string

  /**
   * A bcrypt digest, kept as the term that produced it. bcrypt salts every
   * call, so the salt is part of the term and two hashes of one password
   * need not be equal.
   */
  datatype Hash = Bcrypt(plain: string, salt: nat)

  datatype User = User(
    name: string,
    email: string,
    password: Hash,
    activated: bool,
    roles: set<RoleId>)

  /** One row of the user_auths table: `user` logs in through `provider` as `remote`. */
  datatype Link = Link(user: UserId, provider: Provider, remote: RemoteId)

  /** A provider identity that came back from a callback and matched no link. */
  datatype PendingLink = PendingLink(provider: Provider, remote: RemoteId)

  /**
   * The flashed pair `pending_user_auth` / `pending_user_auth_provider`.
   * The two keys are always flashed, kept and pulled together, so they are
   * one slot. `kept` holds when the slot was flashed or kept during the
   * current request; a slot that is not kept is dropped when the request
   * ends.
   */
  datatype Flash = Flash(link: PendingLink, kept: bool)

  datatype Session = Session(user: Option<UserId>, pending: Option<Flash>)

  datatype State = State(
    users: map<UserId, User>,
    links: seq<Link>,
    tokens: map<Token, UserId>,
    profiles: set<UserId>,
    session: Session)

  /**
   * What the controller takes from its configuration and from framework
   * helpers whose bodies are not part of this model:
   * the keys of `config('auth.login_providers')`, the `email` validation
   * rule, the `default_role` setting (absent when unset), and whether
   * `User::activate` retires the token it was reached through.
   */
  datatype Env = Env(
    loginProviders: set<Provider>,
    isEmail: string -> bool,
    defaultRoleSetting: Option<RoleId>,
    consumeTokenOnActivate: bool)

  /** The fallback passed to `Setting::get('default_role', ...)`. */
  const FallbackRole: RoleId := 100

  function DefaultRole(env: Env): (r: RoleId)
    ensures env.defaultRoleSetting.None? ==> r == FallbackRole
    ensures env.defaultRoleSetting.Some? ==> r == env.defaultRoleSetting.value
  {
    env.defaultRoleSetting.GetOr(FallbackRole)
  }

  predicate IsGuest(s: State)
  {
    s.session.user.None?
  }

  predicate LinksTo(l: Link, provider: Provider, remote: RemoteId)
  {
    l.provider == provider && l.remote == remote
  }

  /** Some link row already carries this provider identity. */
  ghost predicate Linked(links: seq<Link>, provider: Provider, remote: RemoteId)
  {
    exists l :: l in links && LinksTo(l, provider, remote)
  }

  /**
   * `UserAuth::where(['provider' => ..., 'provider_user_id' => ...])->first()`:
   * the first link row, in table order, carrying the identity.
   */
  function FindLink(links: seq<Link>, provider: Provider, remote: RemoteId): (r: Option<Link>)
    ensures r.Some? ==> r.value in links && LinksTo(r.value, provider, remote)
    ensures r.None? <==> !Linked(links, provider, remote)
  {
    match FirstMatch.Index(links, l => LinksTo(l, provider, remote))
    case None =>
      assert forall l :: l in links ==> !LinksTo(l, provider, remote) by {
        forall l | l in links ensures !LinksTo(l, provider, remote) {
          var j :| 0 <= j < |links| && links[j] == l;
        }
      }
      None
    case Some(i) => Some(links[i])
  }

  /** `User::forToken($token)->first()`: the user a token is bound to, if that user exists. */
  function ForToken(s: State, token: Token): (r: Option<UserId>)
    ensures r.Some? <==> token in s.tokens && s.tokens[token] in s.users
    ensures r.Some? ==> r.value == s.tokens[token] && r.value in s.users
  {
    if token in s.tokens && s.tokens[token] in s.users then Some(s.tokens[token]) else None
  }

  /** Every link row belongs to an existing user (the user_id foreign key). */
  ghost predicate LinkOwnersExist(s: State)
  {
    forall l :: l in s.links ==> l.user in s.users
  }

  /** `Auth::login($user)`. */
  function LogIn(s: State, user: UserId): (r: State)
    ensures r.session.user == Some(user)
    ensures r.session.pending == s.session.pending
    ensures r == s.(session := r.session)
  {
    s.(session := s.session.(user := Some(user)))
  }

  /** `Auth::logout()`. */
  function LogOut(s: State): (r: State)
    ensures IsGuest(r)
    ensures r.session.pending == s.session.pending
    ensures r == s.(session := r.session)
  {
    s.(session := s.session.(user := None))
  }

  /** `Session::keep([...pending keys...])`: a present slot survives this request. */
  function KeepPending(s: State): (r: State)
    ensures r == s.(session := r.session)
    ensures r.session.user == s.session.user
    ensures r.session.pending.Some? <==> s.session.pending.Some?
    ensures r.session.pending.Some? ==> r.session.pending.value == Flash(s.session.pending.value.link, true)
  {
    match s.session.pending
    case None => s
    case Some(f) => s.(session := s.session.(pending := Some(f.(kept := true))))
  }

  /** The session as the framework stores it when a request ends: unkept flash data is gone. */
  function AgeFlash(session: Session): (r: Session)
    ensures r.user == session.user
    ensures r.pending.Some? <==> session.pending.Some? && session.pending.value.kept
    ensures r.pending.Some? ==> r.pending.value == Flash(session.pending.value.link, false)
  {
    match session.pending
    case Some(f) =>
      if f.kept then session.(pending := Some(f.(kept := false)))
      else session.(pending := None)
    case None => session
  }
}

=== FILE: permission_defaults.dfy ===
/**
 * The permissions_default table and its lookup: the first row, in the order
 * the table is read, whose permission pattern matches the permission asked
 * about.
 */
module PermissionDefaults {
  import opened Wrappers
  import FirstMatch

  /** One row; the column types of the two values are left open. */
  datatype PermissionDefault<V> = PermissionDefault(permission: string, valueDefault: V, valueAssigned: V)

  /**
   * `matches(pattern, permission)` stands for
   * `preg_match(Util::prepareExpression(pattern), permission)` being truthy;
   * the pattern language itself is not part of this model.
   */
  type Matcher = (string, string) -> bool

  /** The first matching row, as the recursive first-match search defines it. */
  function Lookup<V>(table: seq<PermissionDefault<V>>, permission: string, matches: Matcher): Option<PermissionDefault<V>>
  {
    match FirstMatch.Index(table, (e: PermissionDefault<V>) => matches(e.permission, permission))
    case None => None
    case Some(i) => Some(table[i])
  }

  /**
   * `PermissionDefaults::find`: walks the rows in order and returns the
   * first whose pattern matches, or nothing when the walk falls off the end.
   * The table is taken as a value, so the lookup cannot change it.
   */
  method Find<V>(table: seq<PermissionDefault<V>>, permission: string, matches: Matcher)
    returns (r: Option<PermissionDefault<V>>)
    ensures r.Some? ==> r.value in table && matches(r.value.permission, permission)
    ensures r.Some? ==> exists i :: (0 <= i < |table| && table[i] == r.value
      && forall j :: 0 <= j < i ==> !matches(table[j].permission, permission))
    ensures r.None? <==> forall j :: 0 <= j < |table| ==> !matches(table[j].permission, permission)
    ensures r == Lookup(table, permission, matches)
  {
    ghost var p := (e: PermissionDefault<V>) => matches(e.permission, permission);
    var i := 0;
    while i < |table|
      invariant i <= |table|
      invariant forall j :: 0 <= j < i ==> !matches(table[j].permission, permission)
    {
      if matches(table[i].permission, permission) {
        assert FirstMatch.IsFirst(table, p, i);
        FirstMatch.FirstIsUnique(table, p, i);
        return Some(table[i]);
      }
      i := i + 1;
    }
    assert FirstMatch.NoneMatch(table, p);
    return None;
  }

  /** The lookup is decided by the first matching row alone: rows after it never matter. */
  lemma {:induction false} LaterRowsIrrelevant<V>(
    table: seq<PermissionDefault<V>>, rest: seq<PermissionDefault<V>>, permission: string, matches: Matcher)
    requires Lookup(table, permission, matches).Some?
    ensures Lookup(table + rest, permission, matches) == Lookup(table, permission, matches)
  {
    var p := (e: PermissionDefault<V>) => matches(e.permission, permission);
    var i := FirstMatch.Index(table, p).value;
    assert FirstMatch.IsFirst(table + rest, p, i) by {
      assert (table + rest)[i] == table[i];
      forall j | 0 <= j < i ensures !p((table + rest)[j]) {
        assert (table + rest)[j] == table[j];
      }
    }
    FirstMatch.FirstIsUnique(table + rest, p, i);
  }

  /** Rows placed in front of the table that match nothing leave the lookup unchanged. */
  lemma {:induction false} NonMatchingPrefixIrrelevant<V>(
    prefix: seq<PermissionDefault<V>>, table: seq<PermissionDefault<V>>, permission: string, matches: Matcher)
    requires forall j :: 0 <= j < |prefix| ==> !matches(prefix[j].permission, permission)
    ensures Lookup(prefix + table, permission, matches) == Lookup(table, permission, matches)
  {
    var p := (e: PermissionDefault<V>) => matches(e.permission, permission);
    var whole := prefix + table;
    match FirstMatch.Index(table, p)
    case Some(k) =>
      assert FirstMatch.IsFirst(whole, p, |prefix| + k) by {
        assert whole[|prefix| + k] == table[k];
        forall j | 0 <= j < |prefix| + k ensures !p(whole[j]) {
          if j < |prefix| {
            assert whole[j] == prefix[j];
          } else {
            assert whole[j] == table[j - |prefix|];
          }
        }
      }
      FirstMatch.FirstIsUnique(whole, p, |prefix| + k);
    case None =>
      assert FirstMatch.NoneMatch(whole, p) by {
        forall j | 0 <= j < |whole| ensures !p(whole[j]) {
          if j < |prefix| {
            assert whole[j] == prefix[j];
          } else {
            assert whole[j] == table[j - |prefix|];
          }
        }
      }
  }
}

=== FILE: requests.dfy ===
/**
 * One request at a time through the controller: the guest middleware that
 * the constructor puts in front of every action except the provider
 * redirect, the provider callback and logout, then the action, then the
 * flash aging the session performs when the request ends. `Valid` is the
 * store-and-session invariant these requests keep.
 */
module Requests {
  import opened Wrappers
  import opened Identity
  import opened Validation
  import opened AuthController

  datatype Request =
    | ProviderRedirect(provider: Provider)
    | ProviderCallback(provider: Provider, query: CallbackQuery, remote: RemoteId)
      /** `postLogin` after the framework's credential check accepted `user`. */
    | CredentialsAccepted(user: UserId)
    | ShowRegister
    | SubmitRegister(form: Validation.RegisterForm, given: Fresh)
    | ShowActivation(token: Token)
    | SubmitActivation(token: Token)

  /** Actions behind the guest middleware. */
  predicate GuestOnlyRequest(req: Request)
  {
    !(req.ProviderRedirect? || req.ProviderCallback?)
  }

  /** What the environment guarantees of a request: checked users exist, store-issued values are new. */
  predicate Admissible(s: State, req: Request)
  {
    match req
    case CredentialsAccepted(user) => user in s.users
    case SubmitRegister(_, given) => given.user !in s.users && given.token !in s.tokens
    case _ => true
  }

  function Dispatch(env: Env, s: State, req: Request): (r: Step)
    requires LinkOwnersExist(s)
    requires Admissible(s, req)
    ensures GuestOnlyRequest(req) && !IsGuest(s) ==> r == Respond(s, GuestOnly)
  {
    if GuestOnlyRequest(req) && !IsGuest(s) then Respond(s, GuestOnly)
    else
      match req
      case ProviderRedirect(provider) => RedirectToProvider(env, s, provider)
      case ProviderCallback(provider, query, remote) => HandleProviderCallback(env, s, provider, query, remote)
      case CredentialsAccepted(user) => Authenticated(LogIn(s, user), user)
      case ShowRegister => GetRegister(s)
      case SubmitRegister(form, given) => PostRegister(env, s, form, given)
      case ShowActivation(token) => GetActivation(s, token)
      case SubmitActivation(token) => PostActivation(env, s, token)
  }

  /** A whole request: middleware and action, then the session ages its flash data. */
  function Handle(env: Env, s: State, req: Request): (r: Step)
    requires LinkOwnersExist(s)
    requires Admissible(s, req)
    ensures r.outcome == Dispatch(env, s, req).outcome
    ensures r.state == Dispatch(env, s, req).state.(session := r.state.session)
    ensures r.state.session.user == Dispatch(env, s, req).state.session.user
    // Between requests no slot is marked to survive: the next request must keep it again.
    ensures r.state.session.pending.Some? ==> !r.state.session.pending.value.kept
    // A slot the action flashed or kept survives into the next request, unmarked.
    ensures var d := Dispatch(env, s, req).state.session.pending;
      d.Some? && d.value.kept ==> r.state.session.pending == Some(Flash(d.value.link, false))
    // A slot the action neither flashed nor kept is gone when the request ends.
    ensures var d := Dispatch(env, s, req).state.session.pending;
      d.Some? && !d.value.kept ==> r.state.session.pending.None?
    // A logged-in session turned away by the guest middleware only loses an unkept slot.
    ensures GuestOnlyRequest(req) && !IsGuest(s) ==>
      && r.state == s.(session := AgeFlash(s.session))
      && r.outcome.target == GuestOnly
  {
    var st := Dispatch(env, s, req);
    Step(st.state.(session := AgeFlash(st.state.session)), st.outcome)
  }

  /** No two link rows carry the same provider identity. */
  ghost predicate UniqueIdentities(links: seq<Link>)
  {
    forall i, j :: 0 <= i < j < |links| ==> !LinksTo(links[j], links[i].provider, links[i].remote)
  }

  /**
   * The invariant between requests: rows point at existing users, provider
   * identities are unique, and a pending identity (present only in a guest
   * session, and due to expire unless the next request keeps it) is one
   * that no link row carries yet.
   */
  ghost predicate Valid(s: State)
  {
    && LinkOwnersExist(s)
    && (forall t :: t in s.tokens ==> s.tokens[t] in s.users)
    && s.profiles <= s.users.Keys
    && (s.session.user.Some? ==> s.session.user.value in s.users)
    && UniqueIdentities(s.links)
    && (s.session.pending.Some? ==>
          && !s.session.pending.value.kept
          && IsGuest(s)
          && !Linked(s.links, s.session.pending.value.link.provider, s.session.pending.value.link.remote))
  }

  /** Appending a row for an identity no row carries keeps identities unique. */
  lemma {:induction false} AppendFreshIdentity(links: seq<Link>, l: Link)
    requires UniqueIdentities(links)
    requires !Linked(links, l.provider, l.remote)
    ensures UniqueIdentities(links + [l])
  {
    var links' := links + [l];
    forall i, j | 0 <= i < j < |links'|
      ensures !LinksTo(links'[j], links'[i].provider, links'[i].remote)
    {
      if j == |links| {
        assert links'[i] in links;
      } else {
        assert links'[i] == links[i] && links'[j] == links[j];
      }
    }
  }

  /** The provider callback keeps the invariant. */
  lemma CallbackPreservesValid(env: Env, s: State, provider: Provider, query: CallbackQuery, remote: RemoteId)
    requires Valid(s)
    ensures Valid(Handle(env, s, ProviderCallback(provider, query, remote)).state)
  {
    if CallbackAccepted(env, provider, query) && !Linked(s.links, provider, remote) && !IsGuest(s) {
      AppendFreshIdentity(s.links, Link(s.session.user.value, provider, remote));
    }
  }

  /** Registration keeps the invariant: the pulled identity was unlinked, the new user is new. */
  lemma RegisterPreservesValid(env: Env, s: State, form: Validation.RegisterForm, given: Fresh)
    requires Valid(s)
    requires Admissible(s, SubmitRegister(form, given))
    ensures Valid(Handle(env, s, SubmitRegister(form, given)).state)
  {
    if IsGuest(s) && Violations(env.isEmail, s.users, form) == {} && Pending(s).Some? {
      var p := Pending(s).value;
      AppendFreshIdentity(s.links, Link(given.user, p.provider, p.remote));
    }
  }

  /** Activation keeps the invariant: the pending slot expires with the request that logs in. */
  lemma ActivationPreservesValid(env: Env, s: State, token: Token)
    requires Valid(s)
    ensures Valid(Handle(env, s, SubmitActivation(token)).state)
  {
  }

  /** A successful credential check keeps the invariant. */
  lemma LoginPreservesValid(env: Env, s: State, user: UserId)
    requires Valid(s)
    requires user in s.users
    ensures Valid(Handle(env, s, CredentialsAccepted(user)).state)
  {
  }

  /** Every request keeps the invariant. */
  lemma HandlePreservesValid(env: Env, s: State, req: Request)
    requires Valid(s)
    requires Admissible(s, req)
    ensures Valid(Handle(env, s, req).state)
  {
    match req {
      case ProviderCallback(provider, query, remote) => CallbackPreservesValid(env, s, provider, query, remote);
      case SubmitRegister(form, given) => RegisterPreservesValid(env, s, form, given);
      case SubmitActivation(token) => ActivationPreservesValid(env, s, token);
      case CredentialsAccepted(user) => LoginPreservesValid(env, s, user);
      case _ =>
    }
  }

  /** A sequence of states, each reached from the previous one by the corresponding request. */
  ghost predicate IsTrace(env: Env, states: seq<State>, reqs: seq<Request>)
  {
    && |states| == |reqs| + 1
    && forall i :: 0 <= i < |reqs| ==>
         && LinkOwnersExist(states[i])
         && Admissible(states[i], reqs[i])
         && states[i + 1] == Handle(env, states[i], reqs[i]).state
  }

  /**
   * Starting from a valid state, no sequence of requests ever produces two
   * link rows for the same provider identity.
   */
  lemma {:induction false} TraceKeepsIdentitiesUnique(env: Env, states: seq<State>, reqs: seq<Request>)
    requires IsTrace(env, states, reqs)
    requires Valid(states[0])
    ensures forall i :: 0 <= i < |states| ==> Valid(states[i]) && UniqueIdentities(states[i].links)
    decreases |reqs|
  {
    if |reqs| > 0 {
      HandlePreservesValid(env, states[0], reqs[0]);
      assert IsTrace(env, states[1..], reqs[1..]) by {
        forall i | 0 <= i < |reqs| - 1
          ensures states[1..][i + 1] == Handle(env, states[1..][i], reqs[1..][i]).state
        {
          assert states[1..][i + 1] == states[i + 2];
        }
      }
      TraceKeepsIdentitiesUnique(env, states[1..], reqs[1..]);
      forall i | 0 <= i < |states|
        ensures Valid(states[i])
      {
        if i > 0 {
          assert states[i] == states[1..][i - 1];
        }
      }
    }
  }
}

=== FILE: validation.dfy ===
/**
 * The rules `postRegister` hands to the validator:
 *   name      required | max:255 | unique:users
 *   email     required | email | max:255 | unique:users
 *   password  required | min:6 | confirmed
 */
module Validation {
  import opened Identity

  datatype RegisterForm = RegisterForm(
    name: string,
    email: string,
    password: string,
    confirmation: string)

  datatype Field = NameField | EmailField | PasswordField

  datatype Rule = Required | Max(limit: nat) | Min(limit: nat) | UniqueInUsers | EmailShape | Confirmed

  datatype Violation = Violation(field: Field, rule: Rule)

  const MaxLength: nat := 255
  const MinPasswordLength: nat := 6

  /** The characters PHP's `trim` strips by default. */
  const TrimmedChars: set<char> := {' ', '\t', '\n', '\r', '\0', '\U{000B}'}

  /** A string the `required` rule refuses: nothing left after trimming. */
  predicate IsBlank(s: string)
  {
    forall i :: 0 <= i < |s| ==> s[i] in TrimmedChars
  }

  predicate NameTaken(users: map<UserId, User>, name: string)
  {
    exists id :: id in users && users[id].name == name
  }

  predicate EmailTaken(users: map<UserId, User>, email: string)
  {
    exists id :: id in users && users[id].email == email
  }

  /** Every rule of the registration form that the submitted values break. */
  function Violations(isEmail: string -> bool, users: map<UserId, User>, f: RegisterForm): (r: set<Violation>)
    ensures r == {} <==>
      && !IsBlank(f.name) && |f.name| <= MaxLength && !NameTaken(users, f.name)
      && !IsBlank(f.email) && isEmail(f.email) && |f.email| <= MaxLength && !EmailTaken(users, f.email)
      && !IsBlank(f.password) && |f.password| >= MinPasswordLength && f.password == f.confirmation
  {
    (if IsBlank(f.name) then {Violation(NameField, Required)} else {})
    + (if |f.name| > MaxLength then {Violation(NameField, Max(MaxLength))} else {})
    + (if NameTaken(users, f.name) then {Violation(NameField, UniqueInUsers)} else {})
    + (if IsBlank(f.email) then {Violation(EmailField, Required)} else {})
    + (if !isEmail(f.email) then {Violation(EmailField, EmailShape)} else {})
    + (if |f.email| > MaxLength then {Violation(EmailField, Max(MaxLength))} else {})
    + (if EmailTaken(users, f.email) then {Violation(EmailField, UniqueInUsers)} else {})
    + (if IsBlank(f.password) then {Violation(PasswordField, Required)} else {})
    + (if |f.password| < MinPasswordLength then {Violation(PasswordField, Min(MinPasswordLength))} else {})
    + (if f.password != f.confirmation then {Violation(PasswordField, Confirmed)} else {})
  }
}

=== FILE: wrappers.dfy ===
/** Optional values, standing in for PHP's `null`-or-object returns. */
module Wrappers {

  datatype Option<+T> = None | Some(value: T) {

    /** The carried value, or `default` when there is none. */
    function GetOr(default: T): T
    {
      match this
      case Some(v) => v
      case None => default
    }
  }
}
